=== FILE: README.md ===
# Slideshow timeline model

This project models the playback-synchronisation core of a browser slideshow
editor. The editor shows a list of images in sequence over an audio track.
The model covers these parts:

- **Clip partition** (`App.Clips`): the application splits the audio duration
  into one equal-width clip per image, each carrying the selected transition
  effect.
- **Locator** (`App.GetCurrentClip`): finds the clip whose half-open span
  `[start, end)` contains the current time. It also reports the clip after it
  and the percentage of the clip already played.
- **Timeline strip** (`Timeline`): the strip keeps its own copy of the
  partition. That copy is guarded against a zero duration and gives each clip
  a cyclic transition label. The strip has its own locator, a progress bar
  clamped to [0, 100], a time ruler formatted as `m:ss`, and drag and remove
  handles.
- **Preview** (`Preview`): draws the outgoing image and the incoming image.
  Their opacity, CSS transform and blur filter are pure functions of the
  effect and the progress.
- **Image-list edits** (`ImageEdits`): append uploaded images, remove one by
  position, and move one to another position.

Times and percentages are mathematical reals. Image references are strings,
because the strip compares them as text. A JavaScript `undefined` or `null`
becomes `Option`.

Modules, in dependency order:
- `Types`: effect and clip records.
- `ArrayOps`: `Array.prototype.find` as a first-index scan.
- `RealFacts`: small facts about real products.
- `Tiling`: spans that tile `[0, duration]`.
- `Preview`, then `App`, `ImageEdits`, `Clock` (`formatTime` and a reader for its output), and `Timeline`.

Three behaviours of the code that a reader might not expect, all modelled as written:
- The application's progress is not clamped. It still lies in [0, 100), as
  `App.GetCurrentClip` proves.
- The last clip's end is not forced to equal the duration. With exact reals
  it equals the duration anyway, as `App.ClipsTile` proves.
- Removing an out-of-range position leaves the list unchanged. It does not
  fail.

## Model

| member | source | states |
|---|---|---|
| Types.EffectiveIntensity | src/components/VideoPreview.tsx:79 | `intensity \|\| 5`: a missing or zero intensity reads as 5, any other value (negatives too) is kept, and the result is never 0 |
| Types.SlideDirection | src/components/VideoPreview.tsx:69 | a missing slide direction reads as right, a given one is kept |
| ArrayOps.FindIndex | src/App.tsx:36-38 | `find` stops at the first element satisfying the test, and finds nothing exactly when no element does |
| App.Clips | src/App.tsx:28-33 | one clip per image, in order, each with the selected effect; the first starts at 0, each ends where the next starts, all have width duration / N |
| App.ClipsTile | src/App.tsx:28-33 | for a positive duration the clip spans tile [0, duration] with non-empty, contiguous, ordered spans |
| App.GetCurrentClip | src/App.tsx:35-51 | nothing exactly when no clip contains t; otherwise the first containing clip, the clip right after it (none for the last), and a progress p in [0, 100) with p * width == (t - start) * 100 |
| App.CurrentClipAt | src/App.tsx:35-51 | whichever clip is first to contain t is the one reported, with its progress |
| App.NoClipWithoutPositiveDuration | src/App.tsx:28-38 | with a zero or negative duration no time is ever located |
| App.LocateUniform | src/App.tsx:28-51 | for duration > 0 a time is located exactly when 0 <= t < duration; the clip is number floor(t * N / duration) and the progress is the fractional part of t * N / duration times 100 |
| App.ProgressMonotone | src/App.tsx:43-44 | within one clip the reported progress never decreases as time increases |
| App.PreviewFrame | src/App.tsx:77-93 | the preview shows the placeholder exactly when no clip is located; otherwise the outgoing layer is the located clip's image, an incoming layer appears exactly when a next clip exists and shows its image, and the play bar shows the locator's progress |
| App.PlaceholderWhenNoClip | src/components/VideoPreview.tsx:28-36 | the placeholder shows always for a zero duration, and for a positive duration with at least one image exactly when t < 0 or t >= duration |
| App.PreviewOpacitiesInRange | src/components/VideoPreview.tsx:112-126 | whenever a clip is shown both layers' opacities lie in [0, 1] |
| ImageEdits.AppendImages | src/App.tsx:53-56 | uploads go after the existing images, which keep their positions; the multiset is the union |
| ImageEdits.RemoveImage | src/App.tsx:64-66 | a valid position drops exactly that element and keeps the order of the rest; an invalid one changes nothing |
| ImageEdits.RemoveImageCount | src/App.tsx:64-66 | removing a valid position shortens the list by one and removes exactly one copy of that element |
| ImageEdits.ReorderImages | src/App.tsx:68-75 | the moved element lands at the target, the list is a permutation of the old one, and dropping the target position gives the old list without the source position |
| ImageEdits.ReorderPositions | src/App.tsx:68-75 | the elements between the two positions shift by one toward the source; elements outside that range stay where they are |
| ImageEdits.ReorderSameIndex | src/App.tsx:68-75 | moving an element onto its own position changes nothing |
| ImageEdits.ReorderUndo | src/App.tsx:68-75 | moving the element back again restores the original list |
| Clock.JsRem | src/components/Timeline.tsx:44 | JavaScript `%` truncates toward zero, so the remainder takes the dividend's sign: for b > 0 it lies in [0, b) when a >= 0 and equals a - b * floor(a / b), and lies in (-b, 0] when a < 0 |
| Clock.JsRemNegativeExample | src/components/Timeline.tsx:44 | -4.5 % 60 is -4.5, not the flooring 55.5 |
| Clock.Minutes | src/components/Timeline.tsx:43 | `Math.floor(time / 60)` is non-negative exactly for t >= 0, and 60 * minutes <= t < 60 * minutes + 60 |
| Clock.Seconds | src/components/Timeline.tsx:44 | `Math.floor(time % 60)` lies in [0, 60) for t >= 0 and in [-60, 0] for t < 0 |
| Clock.IntToString | src/components/Timeline.tsx:45 | `toString` of an integer: the digits of its value, after a minus sign exactly when it is negative |
| Clock.FormatTime | src/components/Timeline.tsx:42-46 | the text is at least 4 characters; for t >= 0 it is minute digits without a leading zero (a lone "0" for under a minute), a colon and exactly two second digits; for t < 0 it starts with a minus sign |
| Clock.FormatTimeNegativeExample | src/components/Timeline.tsx:42-46 | a negative time keeps JavaScript's signs in both fields: -4.5 formats as "-1:-5" |
| Clock.ClockFields | src/components/Timeline.tsx:42-46 | for t >= 0 the minutes are >= 0, the seconds are in [0, 60), and minutes * 60 + seconds == floor(t) |
| Clock.NatToString | src/components/Timeline.tsx:45 | `toString` of a non-negative integer gives only digits, a single digit exactly below 10, and no leading zero except for 0 itself |
| Clock.PadStart2 | src/components/Timeline.tsx:45 | `padStart(2, '0')` adds zeros in front up to length 2 and keeps the original text as the suffix |
| Clock.NatToStringRoundTrip | src/components/Timeline.tsx:45 | reading the decimal digits of n gives n back |
| Clock.FormatTimeRoundTrip | src/components/Timeline.tsx:42-46 | for t >= 0 the `m:ss` text reads back as exactly floor(t) seconds |
| Preview.TransformStyle | src/components/VideoPreview.tsx:63-91 | fade, dissolve and blur have no transform; slide moves along X for left/right and along Y for up/down; only zoom scales; only rotate uses `rotate3d` about Y; flip turns about X exactly for up/down and about Y otherwise, with a 1000px perspective; zoom scales by 1 + (intensity / 10) * (progress / 100), with a missing or zero intensity read as 5; flip turns by 180 * progress / 100 degrees |
| Preview.TransformIsLinear | src/components/VideoPreview.tsx:63-91 | every transform is the identity at progress 0, the full transform at 100, and linear in between |
| Preview.TransformBounds | src/components/VideoPreview.tsx:63-91 | for progress in [0, 100] translations stay within ±100%, rotate within ±180°, and flip within [0°, 180°] |
| Preview.SlideOffsetSign | src/components/VideoPreview.tsx:68-77 | a slide translates by progress percent, negated for left and up |
| Preview.ZoomScaleBounds | src/components/VideoPreview.tsx:78-80 | zoom scales from 1 up to 1 + intensity / 10 over progress [0, 100] |
| Preview.RotateAngle | src/components/VideoPreview.tsx:81-83 | rotate turns by -180p for direction left and +180p otherwise, where p is the progress fraction |
| Preview.FilterStyle | src/components/VideoPreview.tsx:93-100 | only blur has a filter; its radius satisfies px * 10 == intensity * progress |
| Preview.BlurBounds | src/components/VideoPreview.tsx:93-100 | the blur radius grows from 0 to 10 * intensity px over progress [0, 100] |
| Preview.IncomingOpacity | src/components/VideoPreview.tsx:126 | the incoming layer's opacity is progress / 100 for fade and 1 otherwise |
| Preview.OutgoingOpacity | src/components/VideoPreview.tsx:112 | for fade the two layers' opacities sum to 1; otherwise the outgoing opacity is 1 |
| Preview.OpacityBounds | src/components/VideoPreview.tsx:112-126 | for progress in [0, 100] both opacities lie in [0, 1] |
| Preview.FadeMonotone | src/components/VideoPreview.tsx:112-126 | in a fade the outgoing layer never brightens and the incoming layer never dims as progress grows |
| Preview.Render | src/components/VideoPreview.tsx:28-146 | placeholder exactly without a current clip; the incoming layer exists exactly when a next clip does, with no transform and the same filter; the play bar shows exactly while playing, with width equal to the progress |
| Preview.OutgoingUnchangedAtStart | src/components/VideoPreview.tsx:107-113 | at progress 0 the outgoing image is drawn unchanged |
| Timeline.Segments | src/components/Timeline.tsx:30-40 | no segments for a zero duration or no images; otherwise one segment per image, in order, starting at 0 |
| Timeline.SegmentsGrid | src/components/Timeline.tsx:33-37 | every segment is duration / N wide, never empty, and ends where the next begins |
| Timeline.SegmentsTile | src/components/Timeline.tsx:30-40 | for a positive duration the segments tile [0, duration] |
| Timeline.TransitionCycle | src/components/Timeline.tsx:26-38 | segment i is labelled with entry i mod 4 of fade, slide, zoom, dissolve; it is never blur, rotate or flip, and the label repeats every 4 segments |
| Timeline.SpansAgree | src/components/Timeline.tsx:30-40 | whenever the strip has segments, their spans equal the application's clip spans |
| Timeline.CurrentSegment | src/components/Timeline.tsx:64-68 | the first segment containing t, or nothing exactly when none does |
| Timeline.AtMostOneSegment | src/components/Timeline.tsx:64-68 | no time lies in two segments, whether the duration is positive or negative |
| Timeline.LocatorsAgree | src/components/Timeline.tsx:64-68 | the strip and the application locate the same image and span at every time, for every duration |
| Timeline.Clamp01 | src/components/Timeline.tsx:72 | `min(max(x, 0), 1)` lies in [0, 1] and equals x inside that range |
| Timeline.ProgressInClip | src/components/Timeline.tsx:70-73 | the bar width lies in [0, 100]; it is 0 up to the start and 100 from the end; inside the segment it is the unclamped percentage |
| Timeline.ProgressInClipMonotone | src/components/Timeline.tsx:70-73 | the bar width never decreases as time moves on |
| Timeline.ProgressBars | src/components/Timeline.tsx:124-128 | a segment gets a bar exactly when the located segment shows the same image text; every bar width lies in [0, 100] |
| Timeline.BarOnCurrentClip | src/components/Timeline.tsx:124-128 | the bar on the clip being played shows exactly the application's progress |
| Timeline.DuplicateImageBars | src/components/Timeline.tsx:124-128 | a copy of the playing image earlier on the strip shows a full bar; a later copy shows an empty one |
| Timeline.DistinctImagesOneBar | src/components/Timeline.tsx:124-128 | with pairwise distinct images only the playing clip carries a bar |
| Timeline.DuplicateImageCounterexample | src/components/Timeline.tsx:124-128 | with images ["a", "a"], duration 2 and time 1.5, both clips carry a bar: 100% and 50% |
| Timeline.CurrentClipBars | src/components/Timeline.tsx:124-128 | the bars with the barred clip chosen by span: their number is the segment count and every width lies in [0, 100] |
| Timeline.CurrentClipBarsExact | src/components/Timeline.tsx:124-128 | in the corrected bars exactly the playing clip carries a bar, showing the application's progress |
| Timeline.CurrentClipBarsAgree | src/components/Timeline.tsx:124-128 | when no image repeats, the corrected bars equal the bars as written |
| Timeline.RulerLabels | src/components/Timeline.tsx:98-105 | one ruler label per rendered clip; for a positive duration each label has the form minute digits, colon, two second digits |
| Timeline.StartsNonNegative | src/components/Timeline.tsx:30-40 | for a positive duration no clip of the strip starts before 0 |
| Timeline.RulerLabelsRead | src/components/Timeline.tsx:98-105 | for a positive duration each ruler label reads back as the whole seconds at which its segment starts |
| Timeline.HandleDrop | src/components/Timeline.tsx:56-61 | dropping rendered clip d onto rendered clip p moves image d to position p, keeps the list a permutation, and leaves the other images in their order (removing position p from the result gives the list with d removed) |
| Timeline.HandleRemove | src/components/Timeline.tsx:135-141 | a clip's remove button drops exactly that clip's image |

## Findings

| source | as written | input that shows it | evidently intended | confidence | as-written member | corrected member |
|---|---|---|---|---|---|---|
| src/components/Timeline.tsx:124 | the bar goes on every clip whose image string equals the playing clip's image | images ["a", "a"], duration 2, time 1.5: both clips show a bar (100% and 50%) | only the clip being played shows a bar | medium, not executed | Timeline.DuplicateImageCounterexample | Timeline.CurrentClipBars |

In the application the defect needs an unusual drag. The list starts with
three distinct URLs (src/App.tsx:11-15), `URL.createObjectURL` makes a fresh
URL on each call, and removing, or reordering by a drag that starts on a
rendered clip, never duplicates an entry. A drag whose text parses to a
number at or beyond the list length can: `splice` then removes nothing and
inserts `undefined`, and two such drops leave two equal `undefined` entries.
Other texts that are not clip positions move an existing image instead:
`parseInt` gives NaN, which `splice` reads as 0, and a negative number counts
from the end of the list. None of these paths is modelled
(see `ImageEdits.ReorderImages` under "## Left out"). Otherwise the defect
shows only when `Timeline` is given a list with a repeated image, for
example when the component is used on its own.

As written the bars are `Timeline.ProgressBars`. `Timeline.DuplicateImageBars`
shows the effect in general: an earlier copy of the playing image shows a
full bar and a later copy an empty one. The corrected `Timeline.CurrentClipBars`
picks the barred clip by its span. `Timeline.CurrentClipBarsExact` proves
that exactly the playing clip gets a bar, showing the application's
progress. `Timeline.CurrentClipBarsAgree` proves the
two versions agree whenever no image repeats.

## Left out

- Floating point: times and percentages are exact reals. NaN, infinities and rounding at segment edges are not modelled. An unknown effect type cannot be written down, so the `default` branches are not modelled either.
- Presentation strings: `getTransitionStyle`'s class names, easing and effect duration, the CSS text of each transform, and the `--progress` custom property are not modelled. Transforms and filters are kept as data.
- Platform calls: `URL.createObjectURL` is not modelled; uploads arrive as references. Drag-and-drop data transfer and `parseInt` are not modelled either; the dragged index is a parameter.
- Other components: audio playback, `WaveformDisplay`, `MediaUpload`, `Header` and `EffectsPanel` are not modelled. They supply `currentTime`, `duration`, `isPlaying` and the selected effect, which are parameters here.
- ImageEdits.ReorderImages: requires both positions in [0, N), because every caller passes rendered clip positions. `splice`'s handling of negative or out-of-range positions is not modelled.
- Timeline.HandleDrop: requires the dragged index to be a rendered clip position. A drag that starts outside the strip, whose text does not parse to such a position, is not modelled. The optional callbacks are always supplied by the application, so their absence is not modelled either.
- Timeline.ProgressInClip: requires a non-empty segment. Every rendered segment has one (`Timeline.SegmentsGrid`); the division by zero on an empty span is not modelled.
- Preview.ZoomScaleBounds: proved for a positive effective intensity only. A negative intensity, which the code accepts, makes zoom shrink the image instead.
- Preview.BlurBounds: proved for a positive effective intensity only, for the same reason.
- Clock.FormatTimeRoundTrip: proved for t >= 0 only. For negative times the model follows the code's signs (`Clock.FormatTimeNegativeExample` shows "-1:-5"), but no reader is given for that text.

=== FILE: app.dfy ===
/** The timeline derivation and playback locator of src/App.tsx, and the way
    the application hands the locator's result to the preview. */
module App {
  import opened Types
  import ArrayOps
  import Tiling
  import Preview
  import RealFacts

  /** The clip list: one clip per image, the duration split into equal widths
      (with no guard against zero duration), every clip carrying the selected effect. */
  function Clips(images: seq<ImageRef>, duration: real, effect: Effect): (clips: seq<Clip>)
    ensures |clips| == |images|
    ensures forall i :: 0 <= i < |clips| ==> clips[i].image == images[i] && clips[i].effect == effect
    ensures |clips| > 0 ==> clips[0].startTime == 0.0
    ensures forall i :: 0 <= i < |clips| - 1 ==> clips[i].endTime == clips[i + 1].startTime
    ensures forall i :: 0 <= i < |clips| ==> clips[i].endTime - clips[i].startTime == duration / |images| as real
  {
    var n := |images| as real;
    seq(|images|, i requires 0 <= i < |images| =>
      Clip(images[i], (duration / n) * i as real, (duration / n) * (i + 1) as real, effect))
  }

  /** The time spans of a clip list, in order. */
  function SpansOf(clips: seq<Clip>): (spans: seq<Tiling.Span>)
    ensures |spans| == |clips|
    ensures forall i :: 0 <= i < |clips| ==>
              spans[i].startTime == clips[i].startTime && spans[i].endTime == clips[i].endTime
  {
    seq(|clips|, i requires 0 <= i < |clips| => Tiling.Span(clips[i].startTime, clips[i].endTime))
  }

  /** For a positive duration the clips tile [0, duration] exactly. */
  lemma ClipsTile(images: seq<ImageRef>, duration: real, effect: Effect)
    requires duration > 0.0 && |images| > 0
    ensures Tiling.Tiles(SpansOf(Clips(images, duration, effect)), duration)
  {
    var clips := Clips(images, duration, effect);
    var spans := SpansOf(clips);
    var n := |images| as real;
    var w := duration / n;
    assert w > 0.0;
    assert spans[|spans| - 1].endTime == w * n;
    forall i | 0 <= i < |spans|
      ensures spans[i].startTime < spans[i].endTime
    {
      assert spans[i].endTime == spans[i].startTime + w;
    }
  }

  /** The located clip, the clip after it (absent for the last clip) and the
      unclamped progress percentage through the located clip. */
  datatype ClipInfo = ClipInfo(currentClip: Clip, nextClip: Option<Clip>, progress: real)

  /** True when position `i` holds the first clip whose span contains `t`. */
  predicate IsCurrentIndex(clips: seq<Clip>, t: real, i: int)
  {
    && 0 <= i < |clips|
    && clips[i].Covers(t)
    && forall j :: 0 <= j < i ==> !clips[j].Covers(t)
  }

  /** `getCurrentClip`: the first clip with start <= t < end, its successor and
      the progress through it; nothing when no clip contains `t`. */
  function GetCurrentClip(clips: seq<Clip>, currentTime: real): (r: Option<ClipInfo>)
    ensures r.None? <==> forall i :: 0 <= i < |clips| ==> !clips[i].Covers(currentTime)
    ensures r.Some? ==>
              (exists i {:trigger IsCurrentIndex(clips, currentTime, i)} ::
                            && IsCurrentIndex(clips, currentTime, i)
                            && r.value.currentClip == clips[i]
                            && r.value.nextClip == (if i + 1 < |clips| then Some(clips[i + 1]) else None))
    ensures r.Some? ==>
              var c := r.value.currentClip;
              && c.Covers(currentTime)
              && 0.0 <= r.value.progress < 100.0
              && r.value.progress * (c.endTime - c.startTime) == (currentTime - c.startTime) * 100.0
  {
    match ArrayOps.FindIndex(clips, (c: Clip) => c.Covers(currentTime))
    case None => None
    case Some(i) =>
      var c := clips[i];
      var next := if i + 1 < |clips| then Some(clips[i + 1]) else None;
      var k: int := i;
      assert IsCurrentIndex(clips, currentTime, k) && c == clips[k]
        && next == (if k + 1 < |clips| then Some(clips[k + 1]) else None);
      var progress := ((currentTime - c.startTime) / (c.endTime - c.startTime)) * 100.0;
      ProgressRange(c.startTime, c.endTime, currentTime);
      Some(ClipInfo(c, next, progress))
  }

  /** The percentage of [s, e) elapsed at t lies in [0, 100). */
  lemma ProgressRange(s: real, e: real, t: real)
    requires s <= t < e
    ensures 0.0 <= ((t - s) / (e - s)) * 100.0 < 100.0
    ensures (((t - s) / (e - s)) * 100.0) * (e - s) == (t - s) * 100.0
  {
    var x := (t - s) / (e - s);
    assert (e - s) * x == t - s;
    assert 0.0 <= x;
    RealFacts.UnscaleLt(e - s, x, 1.0);
  }

  /** Whatever clip is first to contain t is the one reported. */
  lemma CurrentClipAt(clips: seq<Clip>, t: real, k: int)
    requires IsCurrentIndex(clips, t, k)
    ensures GetCurrentClip(clips, t).Some?
    ensures GetCurrentClip(clips, t).value.currentClip == clips[k]
    ensures GetCurrentClip(clips, t).value.progress * (clips[k].endTime - clips[k].startTime)
         == (t - clips[k].startTime) * 100.0
    ensures GetCurrentClip(clips, t).value.progress
         == ((t - clips[k].startTime) / (clips[k].endTime - clips[k].startTime)) * 100.0
  {
    ArrayOps.FindIndexIsFirst(clips, (c: Clip) => c.Covers(t), k);
  }

  /** With a zero or negative duration every clip is empty or reversed, so no
      time is located. */
  lemma NoClipWithoutPositiveDuration(images: seq<ImageRef>, duration: real, effect: Effect, t: real)
    requires duration <= 0.0
    ensures GetCurrentClip(Clips(images, duration, effect), t).None?
  {
    var clips := Clips(images, duration, effect);
    if |images| > 0 {
      var w := duration / |images| as real;
      assert w <= 0.0;
      forall i | 0 <= i < |clips|
        ensures !clips[i].Covers(t)
      {
        assert clips[i].endTime == clips[i].startTime + w;
      }
    }
  }

  /** For a positive duration, a time is located exactly when it lies in
      [0, duration); the clip found is number floor(t * N / duration) and the
      progress is the fractional part of t * N / duration, as a percentage. */
  lemma LocateUniform(images: seq<ImageRef>, duration: real, effect: Effect, t: real)
    requires duration > 0.0 && |images| > 0
    ensures var r := GetCurrentClip(Clips(images, duration, effect), t);
      && (r.Some? <==> 0.0 <= t < duration)
      && (r.Some? ==>
            var x := t * |images| as real / duration;
            && 0 <= x.Floor < |images|
            && r.value.currentClip == Clips(images, duration, effect)[x.Floor]
            && r.value.progress == (x - x.Floor as real) * 100.0)
  {
    if 0.0 <= t < duration {
      var x := t * |images| as real / duration;
      var k, c := ClipAtFloor(images, duration, effect, t);
      LocateAt(images, duration, effect, t, k);
      CurrentClipAt(Clips(images, duration, effect), t, k);
    } else {
      LocateOutside(images, duration, effect, t);
    }
  }

  /** When clip k contains t, the scan stops at k. */
  lemma LocateAt(images: seq<ImageRef>, duration: real, effect: Effect, t: real, k: int)
    requires duration > 0.0 && |images| > 0
    requires 0 <= k < |images| && Clips(images, duration, effect)[k].Covers(t)
    ensures IsCurrentIndex(Clips(images, duration, effect), t, k)
  {
    var clips := Clips(images, duration, effect);
    ClipsTile(images, duration, effect);
    var spans := SpansOf(clips);
    forall j | 0 <= j < k
      ensures !clips[j].Covers(t)
    {
      if clips[j].Covers(t) {
        assert spans[j].Contains(t) && spans[k].Contains(t);
        Tiling.TilingDisjoint(spans, duration, t, j, k);
      }
    }
  }

  /** A time outside [0, duration) lies in no clip. */
  lemma LocateOutside(images: seq<ImageRef>, duration: real, effect: Effect, t: real)
    requires duration > 0.0 && |images| > 0
    requires t < 0.0 || t >= duration
    ensures GetCurrentClip(Clips(images, duration, effect), t).None?
  {
    var clips := Clips(images, duration, effect);
    ClipsTile(images, duration, effect);
    var spans := SpansOf(clips);
    Tiling.TilingCovers(spans, duration, t);
    forall i | 0 <= i < |clips|
      ensures !clips[i].Covers(t)
    {
      assert !spans[i].Contains(t);
    }
  }

  /** For t in [0, duration), clip number floor(t * N / duration) contains t,
      and the progress through it is the fractional part as a percentage. */
  lemma ClipAtFloor(images: seq<ImageRef>, duration: real, effect: Effect, t: real) returns (k: int, c: Clip)
    requires duration > 0.0 && |images| > 0
    requires 0.0 <= t < duration
    ensures k == (t * |images| as real / duration).Floor
    ensures 0 <= k < |images| && c == Clips(images, duration, effect)[k]
    ensures c.Covers(t)
    ensures ((t - c.startTime) / (c.endTime - c.startTime)) * 100.0
         == ((t * |images| as real / duration) - k as real) * 100.0
  {
    k := FloorSlot(t, |images| as real, duration);
    c := ClipAt(images, duration, effect, k);
  }

  /** Clip number k spans [w * k, w * (k + 1)) for the width w = duration / N. */
  lemma ClipAt(images: seq<ImageRef>, duration: real, effect: Effect, k: int) returns (c: Clip)
    requires 0 <= k < |images|
    ensures c == Clips(images, duration, effect)[k]
    ensures c.startTime == (duration / |images| as real) * k as real
    ensures c.endTime == (duration / |images| as real) * (k + 1) as real
  {
    c := Clips(images, duration, effect)[k];
  }

  /** Slot arithmetic: with width w = d / n and x = t * n / d, the slot
      k = floor(x) holds t, and t sits the fraction x - k of the way through it. */
  lemma FloorSlot(t: real, n: real, d: real) returns (k: int)
    requires n >= 1.0 && d > 0.0
    requires 0.0 <= t < d
    ensures k == (t * n / d).Floor
    ensures 0 <= k && k as real < n
    ensures (d / n) * k as real <= t < (d / n) * (k + 1) as real
    ensures ((t - (d / n) * k as real) / ((d / n) * (k + 1) as real - (d / n) * k as real)) * 100.0
         == (t * n / d - k as real) * 100.0
  {
    var w := d / n;
    var x := t * n / d;
    k := x.Floor;
    assert t == w * x by {
      WidthScaling(t, n, d);
    }
    SlotIndexRange(t, n, d);
    assert (k + 1) as real == k as real + 1.0;
    RealFacts.SlotBounds(t, x, w, k as real);
  }

  /** For 0 <= t < d, the scaled time t * n / d lies in [0, n). */
  lemma SlotIndexRange(t: real, n: real, d: real)
    requires n >= 1.0 && d > 0.0
    requires 0.0 <= t < d
    ensures 0.0 <= t * n / d < n
  {
    RealFacts.MulNonneg(t, n);
    RealFacts.ScaleLt(n, t, d);
    RealFacts.MulComm(n, t);
    RealFacts.MulComm(n, d);
    RealFacts.DivLt(t * n, d * n, d);
    RealFacts.DivCancel(d, n);
  }

  /** t * n / d, scaled back by the clip width d / n, gives t again. */
  lemma WidthScaling(t: real, n: real, d: real)
    requires n > 0.0 && d > 0.0
    ensures t == (d / n) * (t * n / d)
  {
  }

  /** Within one clip, progress grows with the current time. */
  lemma ProgressMonotone(clips: seq<Clip>, t1: real, t2: real)
    requires t1 <= t2
    requires GetCurrentClip(clips, t1).Some? && GetCurrentClip(clips, t2).Some?
    requires GetCurrentClip(clips, t1).value.currentClip == GetCurrentClip(clips, t2).value.currentClip
    ensures GetCurrentClip(clips, t1).value.progress <= GetCurrentClip(clips, t2).value.progress
  {
    var c := GetCurrentClip(clips, t1).value.currentClip;
    var p1 := ProgressOf(clips, t1, c);
    var p2 := ProgressOf(clips, t2, c);
    OrderWithinClip(c, t1, t2, p1, p2);
  }

  /** Two times inside one clip, with percentages satisfying the progress
      relation, keep their order. */
  lemma OrderWithinClip(c: Clip, t1: real, t2: real, p1: real, p2: real)
    requires c.startTime <= t1 < c.endTime && c.startTime <= t2 < c.endTime && t1 <= t2
    requires p1 * (c.endTime - c.startTime) == (t1 - c.startTime) * 100.0
    requires p2 * (c.endTime - c.startTime) == (t2 - c.startTime) * 100.0
    ensures p1 <= p2
  {
    ScaledOrder(p1, p2, c.endTime - c.startTime, t1 - c.startTime, t2 - c.startTime);
  }

  /** The progress reported with clip c relates t to c's own span. */
  lemma ProgressOf(clips: seq<Clip>, t: real, c: Clip) returns (p: real)
    requires GetCurrentClip(clips, t).Some? && GetCurrentClip(clips, t).value.currentClip == c
    ensures p == GetCurrentClip(clips, t).value.progress
    ensures c.startTime <= t < c.endTime
    ensures p * (c.endTime - c.startTime) == (t - c.startTime) * 100.0
  {
    p := GetCurrentClip(clips, t).value.progress;
  }

  /** p1 * w = a1 * 100 and p2 * w = a2 * 100 with w > 0 keep the order of a1, a2. */
  lemma ScaledOrder(p1: real, p2: real, w: real, a1: real, a2: real)
    requires w > 0.0 && a1 <= a2
    requires p1 * w == a1 * 100.0 && p2 * w == a2 * 100.0
    ensures p1 <= p2
  {
    RealFacts.MulComm(p1, w);
    RealFacts.MulComm(p2, w);
    RealFacts.UnscaleLe(w, p1, p2);
  }

  /** The preview the application shows: the located clip, the image of the
      clip after it and the progress, or 0 progress and no clip when nothing
      is located. */
  function PreviewFrame(images: seq<ImageRef>, duration: real, effect: Effect, currentTime: real, isPlaying: bool): (f: Preview.Frame)
    ensures f.Placeholder? <==> GetCurrentClip(Clips(images, duration, effect), currentTime).None?
    ensures f.Stage? ==> f.outgoing.image in images
    ensures f.Stage? && f.incoming.Some? ==> f.incoming.value.image in images
    ensures f.Stage? ==>
              var info := GetCurrentClip(Clips(images, duration, effect), currentTime).value;
              && f.outgoing.image == info.currentClip.image
              && (f.incoming.Some? <==> info.nextClip.Some?)
              && (f.incoming.Some? ==> f.incoming.value.image == info.nextClip.value.image)
              && (f.playBar.Some? ==> f.playBar.value == info.progress)
  {
    var clips := Clips(images, duration, effect);
    var info := GetCurrentClip(clips, currentTime);
    var current := match info case None => None case Some(ci) => Some(ci.currentClip);
    var next :=
      match info
      case Some(ci) => (match ci.nextClip case Some(nc) => Some(nc.image) case None => None)
      case None => None;
    var progress := match info case None => 0.0 case Some(ci) => ci.progress;
    Preview.Render(current, next, isPlaying, progress)
  }

  /** With no located clip only the placeholder is shown: for a positive
      duration that is exactly when the time is before 0 or at or after the end,
      and for a zero duration it is always. */
  lemma PlaceholderWhenNoClip(images: seq<ImageRef>, duration: real, effect: Effect, t: real, isPlaying: bool)
    ensures duration <= 0.0 ==> PreviewFrame(images, duration, effect, t, isPlaying).Placeholder?
    ensures duration > 0.0 && |images| > 0 ==>
              (PreviewFrame(images, duration, effect, t, isPlaying).Placeholder? <==> t < 0.0 || t >= duration)
  {
    if duration <= 0.0 {
      NoClipWithoutPositiveDuration(images, duration, effect, t);
    } else if |images| > 0 {
      LocateUniform(images, duration, effect, t);
    }
  }

  /** Whenever a clip is shown, both layers' opacities lie in [0, 1]. */
  lemma PreviewOpacitiesInRange(images: seq<ImageRef>, duration: real, effect: Effect, t: real, isPlaying: bool)
    ensures var f := PreviewFrame(images, duration, effect, t, isPlaying);
      && (f.Stage? ==> 0.0 <= f.outgoing.opacity <= 1.0)
      && (f.Stage? && f.incoming.Some? ==> 0.0 <= f.incoming.value.opacity <= 1.0)
  {
    var info := GetCurrentClip(Clips(images, duration, effect), t);
    if info.Some? {
      Preview.OpacityBounds(effect, info.value.progress);
    }
  }
}

=== FILE: array_ops.dfy ===
/** `Array.prototype.find`, the array scan the editor relies on, stated over
    sequences as a first-index search. */
module ArrayOps {
  import opened Types

  /** True when `i` is the first position of `s` whose element satisfies `p`. */
  predicate IsFirst<T>(s: seq<T>, p: T -> bool, i: int)
  {
    && 0 <= i < |s|
    && p(s[i])
    && forall j :: 0 <= j < i ==> !p(s[j])
  }

  /** The position `Array.prototype.find` stops at: the first element that
      satisfies `p`, or nothing when no element does. */
  function FindIndex<T>(s: seq<T>, p: T -> bool): (r: Option<nat>)
    ensures r.None? <==> forall i :: 0 <= i < |s| ==> !p(s[i])
    ensures r.Some? ==> IsFirst(s, p, r.value)
    decreases |s|
  {
    if |s| == 0 then None
    else if p(s[0]) then Some(0)
    else
      match FindIndex(s[1..], p)
      case None => None
      case Some(k) => Some(k + 1)
  }

  /** The first satisfying position is unique, so `FindIndex` returns it. */
  lemma FindIndexIsFirst<T>(s: seq<T>, p: T -> bool, i: int)
    requires IsFirst(s, p, i)
    ensures FindIndex(s, p) == Some(i)
  {
    var r := FindIndex(s, p);
    assert r.Some?;
  }

  /** Two scans that test the same positions the same way stop at the same place. */
  lemma FindIndexAgree<T, U>(s: seq<T>, p: T -> bool, s': seq<U>, q: U -> bool)
    requires |s| == |s'|
    requires forall i :: 0 <= i < |s| ==> (p(s[i]) <==> q(s'[i]))
    ensures FindIndex(s, p) == FindIndex(s', q)
  {
    var r := FindIndex(s, p);
    if r.Some? {
      var i := r.value;
      assert IsFirst(s', q, i) by {
        forall j | 0 <= j < i ensures !q(s'[j]) {
          assert !p(s[j]);
        }
      }
      FindIndexIsFirst(s', q, i);
    } else {
      assert forall i :: 0 <= i < |s'| ==> !q(s'[i]) by {
        forall i | 0 <= i < |s'| ensures !q(s'[i]) {
          assert !p(s[i]);
        }
      }
    }
  }
}

=== FILE: clock.dfy ===
/** The timeline's `formatTime` (src/components/Timeline.tsx): minutes, a colon
    and the seconds padded to two digits, built from JavaScript's `Math.floor`,
    `%`, `toString` and `padStart`. Its partner is a reader for the same
    "m:ss" text, and the round trip recovers the whole seconds. */
module Clock {
  import opened Types
  import RealFacts

  /** Truncation toward zero. */
  function Trunc(x: real): int
  {
    if x >= 0.0 then x.Floor else -((-x).Floor)
  }

  /** JavaScript's `a % b` on numbers: the quotient is truncated toward zero,
      so the remainder takes the sign of the dividend. */
  function JsRem(a: real, b: real): (r: real)
    requires b != 0.0
    ensures a >= 0.0 && b > 0.0 ==> 0.0 <= r < b
    ensures a >= 0.0 && b > 0.0 ==> r == a - b * (a / b).Floor as real
    ensures a < 0.0 && b > 0.0 ==> -b < r <= 0.0
  {
    var q := Trunc(a / b) as real;
    if a >= 0.0 && b > 0.0 then
      FloorRemainder(a, b);
      a - b * q
    else if a < 0.0 && b > 0.0 then
      NegativeRemainder(a, b);
      a - b * q
    else
      a - b * q
  }

  /** JavaScript's `%` keeps the dividend's sign: -4.5 % 60 is -4.5, where a
      flooring remainder would give 55.5. */
  lemma JsRemNegativeExample()
    ensures JsRem(-4.5, 60.0) == -4.5
  {
  }

  /** For a >= 0 and b > 0, a - b * floor(a / b) lies in [0, b). */
  lemma FloorRemainder(a: real, b: real)
    requires a >= 0.0 && b > 0.0
    ensures 0.0 <= a - b * (a / b).Floor as real < b
  {
    var x := a / b;
    var k := x.Floor as real;
    RealFacts.SlotBounds(a, x, b, k);
    RealFacts.Distrib(b, k, 1.0);
  }

  /** For a < 0 and b > 0 the truncating remainder is the negated remainder of
      -a, so it lies in (-b, 0]. */
  lemma NegativeRemainder(a: real, b: real)
    requires a < 0.0 && b > 0.0
    ensures -b < a - b * Trunc(a / b) as real <= 0.0
  {
    assert (-a) / b == -(a / b);
    var k := ((-a) / b).Floor;
    assert Trunc(a / b) == -k;
    FloorRemainder(-a, b);
  }

  /** `Math.floor(time / 60)` */
  function Minutes(t: real): (m: int)
    ensures t >= 0.0 <==> m >= 0
    ensures (m * 60) as real <= t < (m * 60 + 60) as real
  {
    (t / 60.0).Floor
  }

  /** `Math.floor(time % 60)` */
  function Seconds(t: real): (sec: int)
    ensures t >= 0.0 ==> 0 <= sec < 60
    ensures t < 0.0 ==> -60 <= sec <= 0
  {
    JsRem(t, 60.0).Floor
  }

  /** For a time t >= 0 the minutes are non-negative, the seconds lie in
      [0, 60), and together they count the whole seconds of t. */
  lemma ClockFields(t: real)
    requires t >= 0.0
    ensures Minutes(t) >= 0
    ensures 0 <= Seconds(t) < 60
    ensures Minutes(t) * 60 + Seconds(t) == t.Floor
  {
    var m := Minutes(t);
    var rem := JsRem(t, 60.0);
    assert rem == t - 60.0 * m as real;
    var s := rem.Floor;
    assert s as real <= rem < s as real + 1.0;
    assert (m * 60 + s) as real <= t < (m * 60 + s) as real + 1.0;
  }

  function DigitChar(d: int): (c: char)
    requires 0 <= d < 10
    ensures '0' <= c <= '9' && c as int - '0' as int == d
  {
    ('0' as int + d) as char
  }

  predicate IsDigit(c: char)
  {
    '0' <= c <= '9'
  }

  predicate AllDigits(s: string)
  {
    forall i :: 0 <= i < |s| ==> IsDigit(s[i])
  }

  /** `n.toString()` for a non-negative integer: its decimal digits, most
      significant first, with no leading zeros. */
  function NatToString(n: nat): (s: string)
    ensures |s| >= 1 && AllDigits(s)
    ensures n < 10 <==> |s| == 1
    ensures s[0] == '0' ==> n == 0
  {
    if n < 10 then [DigitChar(n)]
    else NatToString(n / 10) + [DigitChar(n % 10)]
  }

  /** `i.toString()` for any integer: a minus sign before negative numbers. */
  function IntToString(i: int): (s: string)
    ensures i >= 0 ==> s == NatToString(i)
    ensures i < 0 ==> s == "-" + NatToString(-i)
    ensures i >= 0 ==> AllDigits(s) && DigitsValue(s) == i
    ensures i < 0 ==> s[0] == '-' && AllDigits(s[1..]) && DigitsValue(s[1..]) == -i
  {
    if i < 0 then
      NatToStringRoundTrip(-i);
      assert ("-" + NatToString(-i))[1..] == NatToString(-i);
      "-" + NatToString(-i)
    else
      NatToStringRoundTrip(i);
      NatToString(i)
  }

  /** `s.padStart(2, '0')`: zeros in front up to length 2; longer text is kept. */
  function PadStart2(s: string): (r: string)
    ensures |r| == if |s| >= 2 then |s| else 2
    ensures r[|r| - |s|..] == s
    ensures forall i :: 0 <= i < |r| - |s| ==> r[i] == '0'
  {
    if |s| >= 2 then s
    else if |s| == 1 then "0" + s
    else "00"
  }

  /** `formatTime`: "<minutes>:<seconds padded to two digits>". */
  function FormatTime(t: real): (s: string)
    ensures |s| >= 4
    ensures t >= 0.0 ==>
              && s[|s| - 3] == ':'
              && AllDigits(s[..|s| - 3]) && AllDigits(s[|s| - 2..])
    ensures t < 0.0 ==> s[0] == '-'
    ensures t >= 0.0 && s[0] == '0' ==> |s| == 4
  {
    var ms := IntToString(Minutes(t));
    var ss := PadStart2(IntToString(Seconds(t)));
    if t >= 0.0 then
      PaddedSeconds(Seconds(t));
      JoinedFields(ms, ss);
      ms + ":" + ss
    else
      ms + ":" + ss
  }

  /** Minute text, a colon and two-digit second text: where the parts sit in
      the joined string. */
  lemma JoinedFields(ms: string, ss: string)
    requires |ms| >= 1 && |ss| == 2
    ensures var s := ms + ":" + ss;
      && |s| == |ms| + 3 && s[0] == ms[0] && s[|s| - 3] == ':'
      && s[..|s| - 3] == ms && s[|s| - 2..] == ss
  {
    var s := ms + ":" + ss;
    assert s[..|s| - 3] == ms;
    assert s[|s| - 2..] == ss;
  }

  /** Whole minutes and seconds below 60 as the formatter writes them read
      back as their count of seconds. */
  lemma FieldsRoundTrip(m: nat, sec: int)
    requires 0 <= sec < 60
    ensures ParseClock(IntToString(m) + ":" + PadStart2(IntToString(sec))) == Some(m * 60 + sec)
  {
    var ms := IntToString(m);
    assert |ms| >= 1 && AllDigits(ms) && DigitsValue(ms) == m by {
      assert ms == NatToString(m);
      NatToStringRoundTrip(m);
    }
    var ss := PadStart2(IntToString(sec));
    PaddedSeconds(sec);
    ParseJoined(ms, ss);
  }

  /** Minute digits, a colon and two second digits below 60 read back as
      minutes * 60 + seconds. */
  lemma ParseJoined(ms: string, ss: string)
    requires |ms| >= 1 && AllDigits(ms)
    requires |ss| == 2 && AllDigits(ss) && DigitsValue(ss) < 60
    ensures ParseClock(ms + ":" + ss) == Some(DigitsValue(ms) * 60 + DigitsValue(ss))
  {
    var s := ms + ":" + ss;
    JoinedFields(ms, ss);
    FieldsValue(ms, ss);
    assert ParseClock(s) == ParseFields(ms, ss);
  }

  /** Digit fields with seconds below 60 read as minutes * 60 + seconds. */
  lemma FieldsValue(minuteText: string, secondText: string)
    requires AllDigits(minuteText) && AllDigits(secondText) && DigitsValue(secondText) < 60
    ensures ParseFields(minuteText, secondText) == Some(DigitsValue(minuteText) * 60 + DigitsValue(secondText))
  {
  }

  /** The value of a string of decimal digits. */
  function DigitsValue(s: string): (v: nat)
    requires AllDigits(s)
  {
    if |s| == 0 then 0
    else DigitsValue(s[..|s| - 1]) * 10 + (s[|s| - 1] as int - '0' as int)
  }

  /** Reads "m:ss" text back into a count of seconds: one or more minute
      digits, a colon, exactly two second digits below 60. */
  function ParseClock(s: string): (r: Option<nat>)
    ensures r.Some? ==> |s| >= 4 && s[|s| - 3] == ':'
  {
    if |s| >= 4 && s[|s| - 3] == ':' then ParseFields(s[..|s| - 3], s[|s| - 2..])
    else None
  }

  /** The minute text and the two-character second text on either side of
      the colon: both all digits, the seconds below 60. */
  function ParseFields(minuteText: string, secondText: string): (r: Option<nat>)
    ensures r.Some? ==> AllDigits(minuteText) && AllDigits(secondText)
  {
    if AllDigits(minuteText) && AllDigits(secondText) then
      var seconds := DigitsValue(secondText);
      if seconds < 60 then Some(DigitsValue(minuteText) * 60 + seconds) else None
    else None
  }

  /** Reading the decimal digits of n gives n back. */
  lemma {:induction false} NatToStringRoundTrip(n: nat)
    ensures DigitsValue(NatToString(n)) == n
  {
    if n >= 10 {
      NatToStringRoundTrip(n / 10);
      var s := NatToString(n);
      assert s[..|s| - 1] == NatToString(n / 10);
    }
  }

  /** Seconds below 60, padded, are exactly two digits worth the seconds. */
  lemma PaddedSeconds(sec: int)
    requires 0 <= sec < 60
    ensures var p := PadStart2(IntToString(sec));
      |p| == 2 && AllDigits(p) && DigitsValue(p) == sec
  {
    var p := PadStart2(IntToString(sec));
    if sec < 10 {
      assert p == ['0', DigitChar(sec)];
    } else {
      assert p == NatToString(sec);
      NatToStringRoundTrip(sec);
    }
  }

  /** For any time t >= 0 the formatted text reads back as the whole seconds
      of t, with two seconds digits after the colon. */
  lemma FormatTimeRoundTrip(t: real)
    requires t >= 0.0
    ensures ParseClock(FormatTime(t)) == Some(t.Floor)
  {
    ClockFields(t);
    FieldsRoundTrip(Minutes(t), Seconds(t));
  }

  /** Negative times keep JavaScript's signs in both fields. */
  lemma FormatTimeNegativeExample()
    ensures FormatTime(-4.5) == "-1:-5"
  {
    assert Minutes(-4.5) == -1;
    assert Seconds(-4.5) == -5;
  }
}

=== FILE: edits.dfy ===
/** The image-list edits of src/App.tsx: appending uploaded images, removing
    one by position and moving one to a new position. Each returns a new list;
    the clips are derived again from it. */
module ImageEdits {

  /** `handleImageUpload`: the new references go after the existing images. */
  function AppendImages<T>(images: seq<T>, uploaded: seq<T>): (r: seq<T>)
    ensures |r| == |images| + |uploaded|
    ensures forall i :: 0 <= i < |images| ==> r[i] == images[i]
    ensures forall j :: 0 <= j < |uploaded| ==> r[|images| + j] == uploaded[j]
    ensures multiset(r) == multiset(images) + multiset(uploaded)
  {
    images + uploaded
  }

  /** `handleRemoveImage`: keep every element whose position is not `index`.
      Written as the position filter, scanning from the back. */
  function RemoveImage<T>(images: seq<T>, index: int): (r: seq<T>)
    ensures 0 <= index < |images| ==> r == images[..index] + images[index + 1..]
    ensures !(0 <= index < |images|) ==> r == images
    decreases |images|
  {
    if |images| == 0 then []
    else
      var last := |images| - 1;
      RemoveImage(images[..last], index) + (if index == last then [] else [images[last]])
  }

  /** Removing a valid position shortens the list by one and takes exactly one
      copy of the removed element out of its multiset. */
  lemma RemoveImageCount<T>(images: seq<T>, index: int)
    requires 0 <= index < |images|
    ensures |RemoveImage(images, index)| == |images| - 1
    ensures multiset(RemoveImage(images, index)) + multiset{images[index]} == multiset(images)
  {
    var before, after := images[..index], images[index + 1..];
    SplitMultiset(images, index);
    var r := RemoveImage(images, index);
    assert r == before + after;
  }

  /** The multiset of a list splits around any position. */
  lemma SplitMultiset<T>(images: seq<T>, index: int)
    requires 0 <= index < |images|
    ensures multiset(images) == multiset(images[..index]) + multiset{images[index]} + multiset(images[index + 1..])
    ensures multiset(images[..index] + images[index + 1..]) == multiset(images[..index]) + multiset(images[index + 1..])
  {
    assert images == images[..index] + [images[index]] + images[index + 1..];
  }

  /** `handleReorderImages`: take the element at `from` out, then insert it at
      `to` in the shortened list (the two `splice` calls). */
  function ReorderImages<T>(images: seq<T>, from: int, to: int): (r: seq<T>)
    requires 0 <= from < |images| && 0 <= to < |images|
    ensures |r| == |images|
    ensures r[to] == images[from]
    ensures multiset(r) == multiset(images)
    ensures RemoveImage(r, to) == RemoveImage(images, from)
  {
    var moved := images[from];
    var rest := images[..from] + images[from + 1..];
    SplitMultiset(images, from);
    InsertAt(rest, to, moved);
    rest[..to] + [moved] + rest[to..]
  }

  /** Inserting x at position `at` puts it there, and removing that position
      again gives the list back. */
  lemma InsertAt<T>(rest: seq<T>, at: int, x: T)
    requires 0 <= at <= |rest|
    ensures var r := rest[..at] + [x] + rest[at..];
      && |r| == |rest| + 1
      && r[at] == x
      && r[..at] + r[at + 1..] == rest
      && multiset(r) == multiset(rest) + multiset{x}
  {
    var r := rest[..at] + [x] + rest[at..];
    assert r[..at] == rest[..at];
    assert r[at + 1..] == rest[at..];
    assert rest == rest[..at] + rest[at..];
  }

  /** Where every element ends up: the block between the two positions shifts by
      one towards `from`, everything outside it stays put. */
  lemma ReorderPositions<T>(images: seq<T>, from: int, to: int, i: int)
    requires 0 <= from < |images| && 0 <= to < |images|
    requires 0 <= i < |images|
    ensures var r := ReorderImages(images, from, to);
      && (i == to ==> r[i] == images[from])
      && (((i < from && i < to) || (i > from && i > to)) ==> r[i] == images[i])
      && (from <= i < to ==> r[i] == images[i + 1])
      && (to < i <= from ==> r[i] == images[i - 1])
  {
    var rest := images[..from] + images[from + 1..];
    var r := ReorderImages(images, from, to);
    assert r == rest[..to] + [images[from]] + rest[to..];
    if i < to {
      assert r[i] == rest[i];
    } else if i > to {
      assert r[i] == rest[i - 1];
    }
  }

  /** Moving an element onto its own position changes nothing. */
  lemma ReorderSameIndex<T>(images: seq<T>, i: int)
    requires 0 <= i < |images|
    ensures ReorderImages(images, i, i) == images
  {
    var r := ReorderImages(images, i, i);
    forall j | 0 <= j < |images|
      ensures r[j] == images[j]
    {
      ReorderPositions(images, i, i, j);
    }
  }

  /** Moving an element back undoes the move. */
  lemma ReorderUndo<T>(images: seq<T>, from: int, to: int)
    requires 0 <= from < |images| && 0 <= to < |images|
    ensures ReorderImages(ReorderImages(images, from, to), to, from) == images
  {
    var r := ReorderImages(images, from, to);
    var back := ReorderImages(r, to, from);
    forall j | 0 <= j < |images|
      ensures back[j] == images[j]
    {
      ReorderPositions(r, to, from, j);
      if to <= j < from {
        ReorderPositions(images, from, to, j + 1);
      } else if from < j <= to {
        ReorderPositions(images, from, to, j - 1);
      } else {
        ReorderPositions(images, from, to, j);
      }
    }
  }
}

=== FILE: preview.dfy ===
/** The effect renderer of src/components/VideoPreview.tsx: a pure map from the
    current clip's effect and the progress percentage to the opacity, transform
    and filter of the outgoing layer and of the incoming layer. */
module Preview {
  import opened Types

  /** The CSS transforms the renderer produces, as values rather than strings. */
  datatype Transform =
    | NoTransform
    | TranslateX(percent: real)
    | TranslateY(percent: real)
    | Scale(factor: real)
      /** `rotate3d(0, 1, 0, <degrees>deg)`: a turn about the vertical axis */
    | Rotate3dY(degrees: real)
      /** `perspective(<px>px) rotateX(<degrees>deg)` */
    | PerspectiveRotateX(perspectivePx: real, degrees: real)
      /** `perspective(<px>px) rotateY(<degrees>deg)` */
    | PerspectiveRotateY(perspectivePx: real, degrees: real)
  {
    /** The transform leaves the layer exactly where it is. */
    predicate IsIdentity()
    {
      match this
      case NoTransform => true
      case TranslateX(x) => x == 0.0
      case TranslateY(y) => y == 0.0
      case Scale(s) => s == 1.0
      case Rotate3dY(a) => a == 0.0
      case PerspectiveRotateX(_, a) => a == 0.0
      case PerspectiveRotateY(_, a) => a == 0.0
    }
  }

  /** The CSS filter: nothing, or a blur of some pixels. */
  datatype Filter = NoFilter | BlurPx(px: real)

  const SlideOffset: real := 100.0
  const HalfTurn: real := 180.0
  const FlipPerspectivePx: real := 1000.0
  const BlurPxPerIntensity: real := 10.0

  /** True when the effect's direction is up or down (flip turns about X then). */
  predicate Vertical(e: Effect)
  {
    e.direction == Some(Up) || e.direction == Some(Down)
  }

  /** `getTransformStyle`: the outgoing layer's transform at `progress` percent. */
  function TransformStyle(e: Effect, progress: real): (tr: Transform)
    ensures tr.NoTransform? <==> e.kind in {Fade, Dissolve, Blur}
    ensures e.kind == Slide ==>
              && (tr.TranslateX? <==> SlideDirection(e) in {Left, Right})
              && (tr.TranslateY? <==> SlideDirection(e) in {Up, Down})
    ensures e.kind == Zoom <==> tr.Scale?
    ensures e.kind == Rotate <==> tr.Rotate3dY?
    ensures e.kind == Flip ==>
              && (tr.PerspectiveRotateX? <==> Vertical(e))
              && (tr.PerspectiveRotateY? <==> !Vertical(e))
              && tr.perspectivePx == FlipPerspectivePx
    ensures e.kind == Zoom ==> tr.factor == 1.0 + (EffectiveIntensity(e) / 10.0) * (progress / 100.0)
    ensures e.kind == Flip ==> tr.degrees * 100.0 == HalfTurn * progress
  {
    var p := progress / 100.0;
    match e.kind
    case Slide =>
      (match SlideDirection(e)
       case Left => TranslateX(-SlideOffset * p)
       case Right => TranslateX(SlideOffset * p)
       case Up => TranslateY(-SlideOffset * p)
       case Down => TranslateY(SlideOffset * p))
    case Zoom => Scale(1.0 + (EffectiveIntensity(e) / 10.0) * p)
    case Rotate => Rotate3dY((if e.direction == Some(Left) then -HalfTurn else HalfTurn) * p)
    case Flip =>
      var angle := HalfTurn * p;
      if Vertical(e) then PerspectiveRotateX(FlipPerspectivePx, angle)
      else PerspectiveRotateY(FlipPerspectivePx, angle)
    case Fade => NoTransform
    case Dissolve => NoTransform
    case Blur => NoTransform
  }

  /** `getFilterStyle`: only blur filters, by (intensity or 5) * progress / 100 * 10 px. */
  function FilterStyle(e: Effect, progress: real): (f: Filter)
    ensures f.BlurPx? <==> e.kind == Blur
    ensures f.BlurPx? ==> f.px * 10.0 == EffectiveIntensity(e) * progress
  {
    if e.kind == Blur then BlurPx((EffectiveIntensity(e) * progress / 100.0) * BlurPxPerIntensity)
    else NoFilter
  }

  /** The incoming layer's opacity: the progress fraction for fade, else 1. */
  function IncomingOpacity(e: Effect, progress: real): (o: real)
    ensures e.kind == Fade ==> o * 100.0 == progress
    ensures e.kind != Fade ==> o == 1.0
  {
    if e.kind == Fade then progress / 100.0 else 1.0
  }

  /** The outgoing layer's opacity: for fade it is what the incoming layer lacks. */
  function OutgoingOpacity(e: Effect, progress: real): (o: real)
    ensures e.kind == Fade ==> o + IncomingOpacity(e, progress) == 1.0
    ensures e.kind != Fade ==> o == 1.0
  {
    if e.kind == Fade then 1.0 - (progress / 100.0) else 1.0
  }

  /** The transform at fraction `p` of the way from the identity to `full`. */
  function Interpolate(full: Transform, p: real): (tr: Transform)
    ensures p == 0.0 ==> tr.IsIdentity()
    ensures p == 1.0 ==> tr == full
  {
    match full
    case NoTransform => NoTransform
    case TranslateX(x) => TranslateX(x * p)
    case TranslateY(y) => TranslateY(y * p)
    case Scale(s) => Scale(1.0 + (s - 1.0) * p)
    case Rotate3dY(a) => Rotate3dY(a * p)
    case PerspectiveRotateX(d, a) => PerspectiveRotateX(d, a * p)
    case PerspectiveRotateY(d, a) => PerspectiveRotateY(d, a * p)
  }

  /** Every transform moves linearly from the identity at progress 0 to the
      full transform at progress 100. */
  lemma TransformIsLinear(e: Effect, progress: real)
    ensures TransformStyle(e, progress) == Interpolate(TransformStyle(e, 100.0), progress / 100.0)
  {
  }

  /** The transform parameters stay within their full range for progress in [0, 100]. */
  lemma TransformBounds(e: Effect, progress: real)
    requires 0.0 <= progress <= 100.0
    ensures var tr := TransformStyle(e, progress);
      && (tr.TranslateX? ==> -SlideOffset <= tr.percent <= SlideOffset)
      && (tr.TranslateY? ==> -SlideOffset <= tr.percent <= SlideOffset)
      && (tr.Rotate3dY? ==> -HalfTurn <= tr.degrees <= HalfTurn)
      && (tr.PerspectiveRotateX? ==> 0.0 <= tr.degrees <= HalfTurn)
      && (tr.PerspectiveRotateY? ==> 0.0 <= tr.degrees <= HalfTurn)
  {
    var p := progress / 100.0;
    assert 0.0 <= p <= 1.0;
  }

  /** Slide moves by `progress` percent, backwards for left and up. */
  lemma SlideOffsetSign(e: Effect, progress: real)
    requires e.kind == Slide
    ensures var tr := TransformStyle(e, progress);
      tr.percent == (if SlideDirection(e) in {Left, Up} then -progress else progress)
  {
  }

  /** Zoom grows from 1 to 1 + k/10, k the intensity (5 when missing or zero). */
  lemma ZoomScaleBounds(e: Effect, progress: real)
    requires e.kind == Zoom
    requires 0.0 <= progress <= 100.0
    requires EffectiveIntensity(e) > 0.0
    ensures 1.0 <= TransformStyle(e, progress).factor <= 1.0 + EffectiveIntensity(e) / 10.0
  {
    var k := EffectiveIntensity(e) / 10.0;
    var p := progress / 100.0;
    assert 0.0 <= k * p <= k by {
      assert 0.0 <= p <= 1.0;
    }
  }

  /** Rotate turns about the vertical axis by -180p for left and +180p otherwise. */
  lemma RotateAngle(e: Effect, progress: real)
    requires e.kind == Rotate
    ensures TransformStyle(e, progress).degrees * 100.0
         == (if e.direction == Some(Left) then -HalfTurn else HalfTurn) * progress
  {
  }

  /** Blur grows from 0 to 10k px, k the intensity (5 when missing or zero). */
  lemma BlurBounds(e: Effect, progress: real)
    requires e.kind == Blur
    requires 0.0 <= progress <= 100.0
    requires EffectiveIntensity(e) > 0.0
    ensures 0.0 <= FilterStyle(e, progress).px <= BlurPxPerIntensity * EffectiveIntensity(e)
  {
    var k := EffectiveIntensity(e);
    var a := k * progress;
    assert 0.0 <= a <= k * 100.0;
    assert FilterStyle(e, progress).px == a / 10.0;
  }

  /** Both layers' opacities lie in [0, 1] for progress in [0, 100]. */
  lemma OpacityBounds(e: Effect, progress: real)
    requires 0.0 <= progress <= 100.0
    ensures 0.0 <= OutgoingOpacity(e, progress) <= 1.0
    ensures 0.0 <= IncomingOpacity(e, progress) <= 1.0
  {
  }

  /** As progress grows a fade's outgoing layer never brightens and its
      incoming layer never dims. */
  lemma FadeMonotone(e: Effect, p1: real, p2: real)
    requires e.kind == Fade
    requires p1 <= p2
    ensures OutgoingOpacity(e, p2) <= OutgoingOpacity(e, p1)
    ensures IncomingOpacity(e, p1) <= IncomingOpacity(e, p2)
  {
  }

  /** One stacked image layer as the preview draws it. */
  datatype Layer = Layer(image: ImageRef, opacity: real, transform: Transform, filter: Filter)

  /** The preview: the placeholder when there is no current clip, otherwise the
      outgoing layer, the incoming layer when a next clip exists, and the
      play-progress bar width while playing. */
  datatype Frame =
    | Placeholder
    | Stage(outgoing: Layer, incoming: Option<Layer>, playBar: Option<real>)

  /** The whole preview for a current clip, a next image and a progress. */
  function Render(current: Option<Clip>, next: Option<ImageRef>, isPlaying: bool, progress: real): (f: Frame)
    ensures f.Placeholder? <==> current.None?
    ensures f.Stage? ==>
              && f.outgoing.image == current.value.image
              && f.outgoing.opacity == OutgoingOpacity(current.value.effect, progress)
              && f.outgoing.transform == TransformStyle(current.value.effect, progress)
              && f.outgoing.filter == FilterStyle(current.value.effect, progress)
    ensures f.Stage? ==> (f.incoming.Some? <==> next.Some?)
    ensures f.Stage? && f.incoming.Some? ==>
              && f.incoming.value.image == next.value
              && f.incoming.value.opacity == IncomingOpacity(current.value.effect, progress)
              && f.incoming.value.transform == NoTransform
              && f.incoming.value.filter == f.outgoing.filter
    ensures f.Stage? ==> (f.playBar.Some? <==> isPlaying) && (isPlaying ==> f.playBar.value == progress)
  {
    match current
    case None => Placeholder
    case Some(clip) =>
      var e := clip.effect;
      var outgoing := Layer(clip.image, OutgoingOpacity(e, progress), TransformStyle(e, progress), FilterStyle(e, progress));
      var incoming :=
        match next
        case None => None
        case Some(img) => Some(Layer(img, IncomingOpacity(e, progress), NoTransform, FilterStyle(e, progress)));
      Stage(outgoing, incoming, if isPlaying then Some(progress) else None)
  }

  /** At progress 0 the outgoing layer is drawn unchanged: full opacity, an
      identity transform and no blur. */
  lemma OutgoingUnchangedAtStart(clip: Clip, next: Option<ImageRef>, isPlaying: bool)
    ensures var f := Render(Some(clip), next, isPlaying, 0.0);
      && f.Stage?
      && f.outgoing.opacity == 1.0
      && f.outgoing.transform.IsIdentity()
      && (f.outgoing.filter.NoFilter? || f.outgoing.filter.px == 0.0)
  {
    TransformIsLinear(clip.effect, 0.0);
  }
}

=== FILE: real_facts.dfy ===
/** Small facts about products and quotients of reals that the solver does
    not find on its own once several variables are multiplied together. */
module RealFacts {

  lemma MulPos(a: real, b: real)
    requires a > 0.0 && b > 0.0
    ensures a * b > 0.0
  {
  }

  lemma MulNonneg(a: real, b: real)
    requires a >= 0.0 && b >= 0.0
    ensures a * b >= 0.0
  {
  }

  lemma MulComm(a: real, b: real)
    ensures a * b == b * a
  {
  }

  lemma Distrib(w: real, a: real, b: real)
    ensures w * (a + b) == w * a + w * b
  {
  }

  /** Scaling by a positive factor keeps a non-strict order. */
  lemma ScaleLe(w: real, a: real, b: real)
    requires w > 0.0 && a <= b
    ensures w * a <= w * b
  {
    MulNonneg(w, b - a);
    Distrib(w, a, b - a);
  }

  /** Scaling by a positive factor keeps a strict order. */
  lemma ScaleLt(w: real, a: real, b: real)
    requires w > 0.0 && a < b
    ensures w * a < w * b
  {
    MulPos(w, b - a);
    Distrib(w, a, b - a);
  }

  /** A positive factor can be cancelled from a non-strict order. */
  lemma UnscaleLe(w: real, a: real, b: real)
    requires w > 0.0 && w * a <= w * b
    ensures a <= b
  {
    if b < a {
      ScaleLt(w, b, a);
    }
  }

  /** A positive factor can be cancelled from a strict order. */
  lemma UnscaleLt(w: real, a: real, b: real)
    requires w > 0.0 && w * a < w * b
    ensures a < b
  {
    if b <= a {
      ScaleLe(w, b, a);
    }
  }

  /** Dividing by a positive number keeps a strict order. */
  lemma DivLt(a: real, b: real, d: real)
    requires d > 0.0 && a < b
    ensures a / d < b / d
  {
    ScaleLt(1.0 / d, a, b);
  }

  lemma DivCancel(w: real, a: real)
    requires w != 0.0
    ensures (w * a) / w == a
  {
  }

  /** With t = w * x, w > 0 and k <= x < k + 1: t lies in [w * k, w * (k + 1))
      and is the fraction x - k of the way through it. */
  lemma SlotBounds(t: real, x: real, w: real, k: real)
    requires w > 0.0
    requires t == w * x
    requires k <= x < k + 1.0
    ensures w * k <= t < w * (k + 1.0)
    ensures (t - w * k) / (w * (k + 1.0) - w * k) == x - k
  {
    ScaleLe(w, k, x);
    ScaleLt(w, x, k + 1.0);
    Distrib(w, k, 1.0);
    Distrib(w, k, x - k);
    DivCancel(w, x - k);
  }
}

=== FILE: tiling.dfy ===
/** Time spans and what it means for a sequence of them to tile [0, duration]:
    the shared shape of the clip lists both timeline components derive. */
module Tiling {
  import opened Types

  datatype Span = Span(startTime: real, endTime: real)
  {
    predicate Contains(t: real)
    {
      InSpan(startTime, endTime, t)
    }
  }

  /** The spans cover [0, duration] in order: the first starts at 0, each ends
      where the next starts, the last ends at `duration`, and none is empty. */
  predicate Tiles(spans: seq<Span>, duration: real)
  {
    && |spans| > 0
    && spans[0].startTime == 0.0
    && spans[|spans| - 1].endTime == duration
    && (forall i :: 0 <= i < |spans| - 1 ==> spans[i].endTime == spans[i + 1].startTime)
    && (forall i :: 0 <= i < |spans| ==> spans[i].startTime < spans[i].endTime)
  }

  /** In a tiling, an earlier span ends no later than a later one starts. */
  lemma {:induction false} SpansOrdered(spans: seq<Span>, duration: real, i: int, j: int)
    requires Tiles(spans, duration)
    requires 0 <= i < j < |spans|
    ensures spans[i].endTime <= spans[j].startTime
    decreases j - i
  {
    if j == i + 1 {
      assert spans[i].endTime == spans[i + 1].startTime;
    } else {
      SpansOrdered(spans, duration, i, j - 1);
      assert spans[j - 1].endTime == spans[j].startTime;
    }
  }

  /** Every span of a tiling lies inside [0, duration]. */
  lemma SpansWithin(spans: seq<Span>, duration: real, i: int)
    requires Tiles(spans, duration)
    requires 0 <= i < |spans|
    ensures 0.0 <= spans[i].startTime < spans[i].endTime <= duration
  {
    if 0 < i {
      SpansOrdered(spans, duration, 0, i);
    }
    if i < |spans| - 1 {
      SpansOrdered(spans, duration, i, |spans| - 1);
    }
  }

  /** No instant lies in two spans of a tiling: they are contiguous and half-open. */
  lemma TilingDisjoint(spans: seq<Span>, duration: real, t: real, i: int, j: int)
    requires Tiles(spans, duration)
    requires 0 <= i < |spans| && 0 <= j < |spans|
    requires spans[i].Contains(t) && spans[j].Contains(t)
    ensures i == j
  {
    if i < j {
      SpansOrdered(spans, duration, i, j);
    } else if j < i {
      SpansOrdered(spans, duration, j, i);
    }
  }

  /** Exactly the instants of [0, duration) lie in some span of a tiling. */
  lemma {:induction false} TilingCovers(spans: seq<Span>, duration: real, t: real)
    requires Tiles(spans, duration)
    ensures (exists i :: 0 <= i < |spans| && spans[i].Contains(t)) <==> 0.0 <= t < duration
  {
    if 0.0 <= t < duration {
      var k := CoveringIndex(spans, duration, t);
      assert spans[k].Contains(t);
    } else {
      forall i | 0 <= i < |spans|
        ensures !spans[i].Contains(t)
      {
        SpansWithin(spans, duration, i);
      }
    }
  }

  /** The position of the span of a tiling that holds `t`, found by scanning. */
  function CoveringIndex(spans: seq<Span>, duration: real, t: real): (k: nat)
    requires Tiles(spans, duration)
    requires 0.0 <= t < duration
    ensures k < |spans| && spans[k].Contains(t)
  {
    CoveringIndexFrom(spans, duration, t, 0)
  }

  /** Scan from position `from`, knowing `t` is not before that span's start. */
  function CoveringIndexFrom(spans: seq<Span>, duration: real, t: real, from: nat): (k: nat)
    requires Tiles(spans, duration)
    requires from < |spans|
    requires spans[from].startTime <= t < duration
    ensures from <= k < |spans| && spans[k].Contains(t)
    decreases |spans| - from
  {
    if t < spans[from].endTime then from
    else if from == |spans| - 1 then assert false; from
    else CoveringIndexFrom(spans, duration, t, from + 1)
  }
}

=== FILE: timeline.dfy ===
/** The timeline strip of src/components/Timeline.tsx: its own guarded copy of
    the clip partition with a cyclic transition label per clip, its locator,
    the clamped progress bar drawn on clips, the time ruler, and the indices it
    hands to the remove and reorder callbacks. */
module Timeline {
  import opened Types
  import ArrayOps
  import Tiling
  import App
  import Clock
  import ImageEdits
  import RealFacts

  /** A rendered timeline clip: an image, its time span and a transition label. */
  datatype Segment = Segment(image: ImageRef, startTime: real, endTime: real, transition: TransitionType)
  {
    predicate Covers(t: real)
    {
      InSpan(startTime, endTime, t)
    }
  }

  /** The labels the strip cycles through, whatever effect is selected. */
  const Transitions: seq<TransitionType> := [Fade, Slide, Zoom, Dissolve]

  /** The `clips` memo: nothing for a zero duration or no images; otherwise one
      segment per image, in order, labelled cyclically (a negative duration is
      not rejected). Their spans are described by `SegmentsGrid`. */
  function Segments(images: seq<ImageRef>, duration: real): (segs: seq<Segment>)
    ensures segs == [] <==> duration == 0.0 || |images| == 0
    ensures segs != [] ==> |segs| == |images|
    ensures forall i :: 0 <= i < |segs| ==> segs[i].image == images[i]
    ensures |segs| > 0 ==> segs[0].startTime == 0.0
  {
    if duration == 0.0 || |images| == 0 then []
    else
      var segmentDuration := duration / |images| as real;
      seq(|images|, i requires 0 <= i < |images| =>
        Segment(images[i], i as real * segmentDuration, (i + 1) as real * segmentDuration,
                Transitions[i % |Transitions|]))
  }

  /** Each segment is duration / N wide, hence never empty, and ends where
      the next one starts. */
  lemma SegmentsGrid(images: seq<ImageRef>, duration: real)
    ensures var segs := Segments(images, duration);
      && (forall i :: 0 <= i < |segs| - 1 ==> segs[i].endTime == segs[i + 1].startTime)
      && (forall i :: 0 <= i < |segs| ==> segs[i].endTime - segs[i].startTime == duration / |images| as real)
      && (forall i :: 0 <= i < |segs| ==> segs[i].startTime != segs[i].endTime)
  {
    var segs := Segments(images, duration);
    if segs != [] {
      var w := duration / |images| as real;
      assert w != 0.0;
      forall i | 0 <= i < |segs|
        ensures segs[i].endTime == segs[i].startTime + w
      {
        RealFacts.Distrib(w, i as real, 1.0);
        RealFacts.MulComm(w, i as real);
        RealFacts.MulComm(w, (i + 1) as real);
      }
    }
  }

  /** The time spans of the segments, in order. */
  function SpansOf(segs: seq<Segment>): (spans: seq<Tiling.Span>)
    ensures |spans| == |segs|
    ensures forall i :: 0 <= i < |segs| ==>
              spans[i].startTime == segs[i].startTime && spans[i].endTime == segs[i].endTime
  {
    seq(|segs|, i requires 0 <= i < |segs| => Tiling.Span(segs[i].startTime, segs[i].endTime))
  }

  /** For a positive duration the segments tile [0, duration] exactly. */
  lemma SegmentsTile(images: seq<ImageRef>, duration: real)
    requires duration > 0.0 && |images| > 0
    ensures Tiling.Tiles(SpansOf(Segments(images, duration)), duration)
  {
    var segs := Segments(images, duration);
    SegmentsGrid(images, duration);
    var n := |images| as real;
    var w := duration / n;
    assert segs[|segs| - 1].endTime == n * w;
    assert n * w == duration;
    assert w > 0.0;
  }

  /** Clip i is labelled with entry i mod 4 of the cycle: the labels repeat
      every four clips and are never blur, rotate or flip, whatever effect the
      application has selected. */
  lemma TransitionCycle(images: seq<ImageRef>, duration: real, i: int)
    requires 0 <= i < |Segments(images, duration)|
    ensures var segs := Segments(images, duration);
      && segs[i].transition == Transitions[i % 4]
      && segs[i].transition in {Fade, Slide, Zoom, Dissolve}
      && (i + 4 < |segs| ==> segs[i + 4].transition == segs[i].transition)
  {
    var segs := Segments(images, duration);
    assert segs[i].transition == Transitions[i % |Transitions|];
    if i + 4 < |segs| {
      assert segs[i + 4].transition == Transitions[(i + 4) % |Transitions|];
      assert (i + 4) % 4 == i % 4;
    }
  }

  /** Whenever the strip renders, its spans are the application's spans. */
  lemma SpansAgree(images: seq<ImageRef>, duration: real, effect: Effect)
    requires duration != 0.0
    ensures SpansOf(Segments(images, duration)) == App.SpansOf(App.Clips(images, duration, effect))
  {
    var segs := Segments(images, duration);
    var clips := App.Clips(images, duration, effect);
    if |images| > 0 {
      var w := duration / |images| as real;
      forall i | 0 <= i < |images|
        ensures segs[i].startTime == clips[i].startTime && segs[i].endTime == clips[i].endTime
      {
        assert segs[i].startTime == i as real * w;
        assert clips[i].startTime == w * i as real;
        RealFacts.MulComm(i as real, w);
        RealFacts.MulComm((i + 1) as real, w);
      }
    }
  }

  /** `getCurrentClip`: the first segment with start <= t < end, if any. */
  function CurrentSegment(segs: seq<Segment>, currentTime: real): (r: Option<Segment>)
    ensures r.None? <==> forall i :: 0 <= i < |segs| ==> !segs[i].Covers(currentTime)
    ensures r.Some? ==> exists i :: 0 <= i < |segs| && segs[i] == r.value && segs[i].Covers(currentTime)
                                    && forall j :: 0 <= j < i ==> !segs[j].Covers(currentTime)
  {
    match ArrayOps.FindIndex(segs, (s: Segment) => s.Covers(currentTime))
    case None => None
    case Some(i) => Some(segs[i])
  }

  /** No instant lies in two segments: for a positive duration they tile, and
      for a negative one every segment is reversed and holds nothing. */
  lemma AtMostOneSegment(images: seq<ImageRef>, duration: real, t: real, i: int, j: int)
    requires var segs := Segments(images, duration);
      0 <= i < |segs| && 0 <= j < |segs| && segs[i].Covers(t) && segs[j].Covers(t)
    ensures i == j
  {
    var segs := Segments(images, duration);
    SegmentsGrid(images, duration);
    if duration > 0.0 {
      SegmentsTile(images, duration);
      var spans := SpansOf(segs);
      assert spans[i].Contains(t) && spans[j].Contains(t);
      Tiling.TilingDisjoint(spans, duration, t, i, j);
    } else {
      assert false;
    }
  }

  /** The strip and the application locate the same clip at every time, on
      every input: the application's zero-duration clips are all empty, and
      otherwise the two partitions coincide. */
  lemma LocatorsAgree(images: seq<ImageRef>, duration: real, effect: Effect, t: real)
    ensures var a := App.GetCurrentClip(App.Clips(images, duration, effect), t);
            var b := CurrentSegment(Segments(images, duration), t);
      && (a.None? <==> b.None?)
      && (a.Some? ==>
            && a.value.currentClip.image == b.value.image
            && a.value.currentClip.startTime == b.value.startTime
            && a.value.currentClip.endTime == b.value.endTime)
  {
    var clips := App.Clips(images, duration, effect);
    var segs := Segments(images, duration);
    if duration == 0.0 || |images| == 0 {
      if duration == 0.0 {
        App.NoClipWithoutPositiveDuration(images, duration, effect, t);
      }
    } else {
      SpansAgree(images, duration, effect);
      var spansA := App.SpansOf(clips);
      var spansB := SpansOf(segs);
      assert forall i :: 0 <= i < |clips| ==> spansA[i] == spansB[i];
      ArrayOps.FindIndexAgree(clips, (c: Clip) => c.Covers(t), segs, (s: Segment) => s.Covers(t));
    }
  }

  /** `Math.min(Math.max(x, 0), 1)` */
  function Clamp01(x: real): (r: real)
    ensures 0.0 <= r <= 1.0
    ensures 0.0 <= x <= 1.0 ==> r == x
    ensures x < 0.0 ==> r == 0.0
    ensures x > 1.0 ==> r == 1.0
  {
    var lower := if x > 0.0 then x else 0.0;
    if lower < 1.0 then lower else 1.0
  }

  /** `getProgressInClip`: how far `currentTime` is through the segment, as a
      percentage clamped to [0, 100]. Segments the strip renders never have
      zero width, which this division needs. */
  function ProgressInClip(seg: Segment, currentTime: real): (r: real)
    requires seg.startTime != seg.endTime
    ensures 0.0 <= r <= 100.0
    ensures seg.startTime < seg.endTime && currentTime <= seg.startTime ==> r == 0.0
    ensures seg.startTime < seg.endTime && currentTime >= seg.endTime ==> r == 100.0
    ensures seg.Covers(currentTime) ==>
              r * (seg.endTime - seg.startTime) == (currentTime - seg.startTime) * 100.0
  {
    var ratio := (currentTime - seg.startTime) / (seg.endTime - seg.startTime);
    ClampedRatio(seg.startTime, seg.endTime, currentTime);
    Clamp01(ratio) * 100.0
  }

  /** The ratio (t - s) / (e - s) for s < e: at most 0 up to s, at least 1 from
      e on, and in [0, 1] in between. */
  lemma ClampedRatio(s: real, e: real, t: real)
    requires s != e
    ensures var x := (t - s) / (e - s);
      && (s < e && t <= s ==> x <= 0.0)
      && (s < e && t >= e ==> x >= 1.0)
      && (s <= t < e ==> 0.0 <= x <= 1.0 && x * (e - s) == t - s)
  {
    var w := e - s;
    var x := (t - s) / w;
    assert w * x == t - s;
    if s < e {
      ScaledRatioBounds(w, t - s, x);
    }
  }

  /** For w > 0 and w * x == a: x <= 0 when a <= 0, x >= 1 when a >= w, and
      x lies in [0, 1] when a does in [0, w]. */
  lemma ScaledRatioBounds(w: real, a: real, x: real)
    requires w > 0.0 && w * x == a
    ensures a <= 0.0 ==> x <= 0.0
    ensures a >= w ==> x >= 1.0
    ensures 0.0 <= a <= w ==> 0.0 <= x <= 1.0
  {
    if a <= 0.0 && x > 0.0 {
      RealFacts.MulPos(w, x);
    }
    if a >= w && x < 1.0 {
      RealFacts.ScaleLt(w, x, 1.0);
    }
    if a <= w && x > 1.0 {
      RealFacts.ScaleLt(w, 1.0, x);
    }
    if a >= 0.0 && x < 0.0 {
      RealFacts.ScaleLt(w, x, 0.0);
    }
  }

  /** The clamped progress never decreases as time moves on. */
  lemma ProgressInClipMonotone(seg: Segment, t1: real, t2: real)
    requires seg.startTime < seg.endTime
    requires t1 <= t2
    ensures ProgressInClip(seg, t1) <= ProgressInClip(seg, t2)
  {
    var w := seg.endTime - seg.startTime;
    var x1 := (t1 - seg.startTime) / w;
    var x2 := (t2 - seg.startTime) / w;
    RealFacts.ScaleLe(1.0 / w, t1 - seg.startTime, t2 - seg.startTime);
    assert x1 <= x2;
  }

  /** The progress bar on each rendered clip: drawn, with that clip's own
      clamped progress, on every clip whose image string equals the current
      clip's image; absent elsewhere. */
  function ProgressBars(images: seq<ImageRef>, duration: real, currentTime: real): (bars: seq<Option<real>>)
    ensures |bars| == |Segments(images, duration)|
    ensures forall i :: 0 <= i < |bars| ==>
              (bars[i].Some? <==>
                 CurrentSegment(Segments(images, duration), currentTime).Some?
                 && CurrentSegment(Segments(images, duration), currentTime).value.image == images[i])
    ensures forall i :: 0 <= i < |bars| ==> bars[i].Some? ==> 0.0 <= bars[i].value <= 100.0
  {
    SegmentsGrid(images, duration);
    BarsOf(Segments(images, duration), currentTime)
  }

  /** The bars over any list of non-empty segments. */
  function BarsOf(segs: seq<Segment>, currentTime: real): (bars: seq<Option<real>>)
    requires forall i :: 0 <= i < |segs| ==> segs[i].startTime != segs[i].endTime
    ensures |bars| == |segs|
    ensures forall i :: 0 <= i < |bars| ==>
              (bars[i].Some? <==>
                 CurrentSegment(segs, currentTime).Some? && CurrentSegment(segs, currentTime).value.image == segs[i].image)
    ensures forall i :: 0 <= i < |bars| ==> bars[i].Some? ==> 0.0 <= bars[i].value <= 100.0
  {
    var current := CurrentSegment(segs, currentTime);
    seq(|segs|, i requires 0 <= i < |segs| =>
      if current.Some? && current.value.image == segs[i].image
      then Some(ProgressInClip(segs[i], currentTime))
      else None)
  }

  /** The application's current clip index is also the strip's current
      segment, with the same image and span. */
  lemma CurrentIndexSegment(images: seq<ImageRef>, duration: real, effect: Effect, t: real, k: int)
    requires App.IsCurrentIndex(App.Clips(images, duration, effect), t, k)
    ensures var clips := App.Clips(images, duration, effect);
            var segs := Segments(images, duration);
      && 0 <= k < |segs|
      && segs[k].image == clips[k].image
      && segs[k].startTime == clips[k].startTime && segs[k].endTime == clips[k].endTime
      && CurrentSegment(segs, t) == Some(segs[k])
  {
    var clips := App.Clips(images, duration, effect);
    var segs := Segments(images, duration);
    assert clips[k].Covers(t);
    if duration <= 0.0 {
      App.NoClipWithoutPositiveDuration(images, duration, effect, t);
      assert false;
    }
    SpansAgree(images, duration, effect);
    var spansA := App.SpansOf(clips);
    var spansB := SpansOf(segs);
    assert forall j :: 0 <= j < |clips| ==> spansA[j] == spansB[j];
    assert spansB[k] == spansA[k];
    ArrayOps.FindIndexIsFirst(segs, (sg: Segment) => sg.Covers(t), k);
  }

  /** Inside a clip of positive width the clamped progress of a segment with
      the same span is the unique p with p * width == (t - start) * 100. */
  lemma SameProgress(seg: Segment, c: Clip, t: real, p: real)
    requires seg.startTime == c.startTime && seg.endTime == c.endTime
    requires c.Covers(t)
    requires p * (c.endTime - c.startTime) == (t - c.startTime) * 100.0
    ensures ProgressInClip(seg, t) == p
  {
    var w := c.endTime - c.startTime;
    var q := ProgressInClip(seg, t);
    assert q * w == p * w;
    RealFacts.MulComm(q, w);
    RealFacts.MulComm(p, w);
    RealFacts.DivCancel(w, p);
    RealFacts.DivCancel(w, q);
  }

  /** The bar on the clip being played shows the application's own progress. */
  lemma BarOnCurrentClip(images: seq<ImageRef>, duration: real, effect: Effect, t: real, k: int)
    requires App.IsCurrentIndex(App.Clips(images, duration, effect), t, k)
    ensures 0 <= k < |ProgressBars(images, duration, t)|
    ensures ProgressBars(images, duration, t)[k]
         == Some(App.GetCurrentClip(App.Clips(images, duration, effect), t).value.progress)
  {
    CurrentIndexSegment(images, duration, effect, t, k);
    SegmentsGrid(images, duration);
    BarAt(Segments(images, duration), App.Clips(images, duration, effect), t, k);
  }

  /** A segment list and a clip list that agree on the span of the current
      index give that index's bar the application's progress. */
  lemma BarAt(segs: seq<Segment>, clips: seq<Clip>, t: real, k: int)
    requires forall i :: 0 <= i < |segs| ==> segs[i].startTime != segs[i].endTime
    requires App.IsCurrentIndex(clips, t, k)
    requires 0 <= k < |segs| && CurrentSegment(segs, t) == Some(segs[k])
    requires segs[k].startTime == clips[k].startTime && segs[k].endTime == clips[k].endTime
    ensures BarsOf(segs, t)[k] == Some(App.GetCurrentClip(clips, t).value.progress)
  {
    App.CurrentClipAt(clips, t, k);
    SameProgress(segs[k], clips[k], t, App.GetCurrentClip(clips, t).value.progress);
  }

  /** A clip showing the same image as the current one, earlier on the strip,
      gets a full bar; one later on gets an empty bar. */
  lemma DuplicateImageBars(images: seq<ImageRef>, duration: real, t: real, k: int, i: int)
    requires duration > 0.0
    requires 0 <= k < |images| && 0 <= i < |images| && i != k
    requires Segments(images, duration)[k].Covers(t)
    requires images[i] == images[k]
    ensures ProgressBars(images, duration, t)[i] == Some(if i < k then 100.0 else 0.0)
  {
    var segs := Segments(images, duration);
    SegmentsTile(images, duration);
    var spans := SpansOf(segs);
    var cur := CurrentSegment(segs, t);
    assert cur.Some?;
    var m :| 0 <= m < |segs| && segs[m] == cur.value && segs[m].Covers(t);
    AtMostOneSegment(images, duration, t, m, k);
    if i < k {
      Tiling.SpansOrdered(spans, duration, i, k);
    } else {
      Tiling.SpansOrdered(spans, duration, k, i);
    }
  }

  /** With pairwise distinct images exactly the current clip carries a bar. */
  lemma DistinctImagesOneBar(images: seq<ImageRef>, duration: real, t: real, k: int, i: int)
    requires forall a, b :: 0 <= a < b < |images| ==> images[a] != images[b]
    requires 0 <= k < |Segments(images, duration)| && Segments(images, duration)[k].Covers(t)
    requires 0 <= i < |images|
    ensures ProgressBars(images, duration, t)[i].Some? <==> i == k
  {
    var segs := Segments(images, duration);
    var cur := CurrentSegment(segs, t);
    var m :| 0 <= m < |segs| && segs[m] == cur.value && segs[m].Covers(t);
    AtMostOneSegment(images, duration, t, m, k);
  }

  /** Two copies of one image: while the second copy plays at half way, the
      first copy, which is not playing, also shows a full bar. */
  lemma DuplicateImageCounterexample()
    ensures ProgressBars(["a", "a"], 2.0, 1.5) == [Some(100.0), Some(50.0)]
  {
    var images: seq<ImageRef> := ["a", "a"];
    var segs := Segments(images, 2.0);
    assert segs[1].startTime == 1.0 && segs[1].endTime == 2.0;
    assert segs[1].Covers(1.5);
    DuplicateImageBars(images, 2.0, 1.5, 1, 0);
    var bars := ProgressBars(images, 2.0, 1.5);
    assert bars[1].Some?;
    assert bars[1].value * 1.0 == 0.5 * 100.0;
  }

  /** The bars with the barred clip chosen by its span rather than by its
      image text: a clip carries a bar exactly while it is being played. */
  function CurrentClipBars(images: seq<ImageRef>, duration: real, currentTime: real): (bars: seq<Option<real>>)
    ensures |bars| == |Segments(images, duration)|
    ensures forall i :: 0 <= i < |bars| && bars[i].Some? ==> 0.0 <= bars[i].value <= 100.0
  {
    var segs := Segments(images, duration);
    SegmentsGrid(images, duration);
    seq(|segs|, i requires 0 <= i < |segs| =>
      if segs[i].Covers(currentTime) then Some(ProgressInClip(segs[i], currentTime)) else None)
  }

  /** In the corrected bars exactly the clip the application plays carries a
      bar, and it shows the application's progress. */
  lemma CurrentClipBarsExact(images: seq<ImageRef>, duration: real, effect: Effect, t: real, k: int, i: int)
    requires App.IsCurrentIndex(App.Clips(images, duration, effect), t, k)
    requires 0 <= i < |images|
    ensures 0 <= k < |CurrentClipBars(images, duration, t)| == |images|
    ensures CurrentClipBars(images, duration, t)[i].Some? <==> i == k
    ensures CurrentClipBars(images, duration, t)[k]
         == Some(App.GetCurrentClip(App.Clips(images, duration, effect), t).value.progress)
  {
    var segs := Segments(images, duration);
    CurrentIndexSegment(images, duration, effect, t, k);
    if segs[i].Covers(t) {
      AtMostOneSegment(images, duration, t, i, k);
    }
    BarOnCurrentClip(images, duration, effect, t, k);
    assert ProgressBars(images, duration, t)[k].value == ProgressInClip(segs[k], t);
  }

  /** When no image repeats, choosing by image text and by span agree. */
  lemma CurrentClipBarsAgree(images: seq<ImageRef>, duration: real, t: real)
    requires forall a, b :: 0 <= a < b < |images| ==> images[a] != images[b]
    ensures CurrentClipBars(images, duration, t) == ProgressBars(images, duration, t)
  {
    var segs := Segments(images, duration);
    var fixed := CurrentClipBars(images, duration, t);
    var bars := ProgressBars(images, duration, t);
    forall i | 0 <= i < |segs|
      ensures fixed[i] == bars[i]
    {
      if segs[i].Covers(t) {
        DistinctImagesOneBar(images, duration, t, i, i);
      }
    }
  }

  /** The ruler: each segment's start time, formatted. */
  function RulerLabels(images: seq<ImageRef>, duration: real): (labels: seq<string>)
    ensures |labels| == |Segments(images, duration)|
    ensures duration > 0.0 ==> forall i :: 0 <= i < |labels| ==> RulerLabelShape(labels[i])
  {
    if duration > 0.0 then
      StartsNonNegative(images, duration);
      LabelsOf(Segments(images, duration))
    else
      LabelsOf(Segments(images, duration))
  }

  /** One formatted start time per segment. */
  function LabelsOf(segs: seq<Segment>): (labels: seq<string>)
    ensures |labels| == |segs|
    ensures (forall i :: 0 <= i < |segs| ==> segs[i].startTime >= 0.0) ==>
              forall i :: 0 <= i < |labels| ==> RulerLabelShape(labels[i])
  {
    seq(|segs|, i requires 0 <= i < |segs| => Clock.FormatTime(segs[i].startTime))
  }

  /** For a positive duration no segment starts before 0. */
  lemma StartsNonNegative(images: seq<ImageRef>, duration: real)
    requires duration > 0.0
    ensures forall i :: 0 <= i < |Segments(images, duration)| ==> Segments(images, duration)[i].startTime >= 0.0
  {
    var segs := Segments(images, duration);
    if |images| > 0 {
      SegmentsTile(images, duration);
      forall i | 0 <= i < |segs|
        ensures segs[i].startTime >= 0.0
      {
        Tiling.SpansWithin(SpansOf(segs), duration, i);
      }
    }
  }

  /** A label of the form "m:ss": minute digits, a colon, two second digits. */
  predicate RulerLabelShape(l: string)
  {
    && |l| >= 4 && l[|l| - 3] == ':'
    && Clock.AllDigits(l[..|l| - 3]) && Clock.AllDigits(l[|l| - 2..])
  }

  /** For a positive duration each ruler label reads back as the whole seconds
      at which its segment starts. */
  lemma RulerLabelsRead(images: seq<ImageRef>, duration: real, i: int)
    requires duration > 0.0
    requires 0 <= i < |Segments(images, duration)|
    ensures Clock.ParseClock(RulerLabels(images, duration)[i])
         == Some(Segments(images, duration)[i].startTime.Floor)
  {
    var segs := Segments(images, duration);
    SegmentsTile(images, duration);
    Tiling.SpansWithin(SpansOf(segs), duration, i);
    Clock.FormatTimeRoundTrip(segs[i].startTime);
  }

  /** Dropping rendered clip `dragIndex` onto rendered clip `dropIndex` moves
      the image; both are clip positions, so both are valid list positions. */
  function HandleDrop(images: seq<ImageRef>, duration: real, dragIndex: int, dropIndex: int): (r: seq<ImageRef>)
    requires 0 <= dragIndex < |Segments(images, duration)|
    requires 0 <= dropIndex < |Segments(images, duration)|
    ensures |r| == |images| && multiset(r) == multiset(images)
    ensures r[dropIndex] == images[dragIndex]
    ensures ImageEdits.RemoveImage(r, dropIndex) == ImageEdits.RemoveImage(images, dragIndex)
  {
    ImageEdits.ReorderImages(images, dragIndex, dropIndex)
  }

  /** The remove button of rendered clip `index` removes exactly that image. */
  function HandleRemove(images: seq<ImageRef>, duration: real, index: int): (r: seq<ImageRef>)
    requires 0 <= index < |Segments(images, duration)|
    ensures |r| == |images| - 1
    ensures r == images[..index] + images[index + 1..]
  {
    ImageEdits.RemoveImage(images, index)
  }
}

=== FILE: types.dfy ===
/** The effect and clip records shared by the editor's components
    (src/types/effects.ts), plus the optional-value wrapper the model uses
    wherever the source has `undefined` or `null`. */
module Types {

  /** A value that may be absent (`undefined` / `null` in the source). */
  datatype Option<+T> = None | Some(value: T) {

    /** The wrapped value, or `default` when absent (the `??` operator). */
    function GetOr(default: T): T
    {
      match this
      case Some(v) => v
      case None => default
    }
  }

  /** The seven transition kinds an effect may name. */
  datatype TransitionType = Fade | Slide | Zoom | Dissolve | Blur | Rotate | Flip

  datatype Easing = Linear | EaseIn | EaseOut | EaseInOut

  datatype Direction = Left | Right | Up | Down

  /** A transition effect. `duration` and `easing` only feed presentation class
      names; `direction` and `intensity` are optional fields. */
  datatype Effect = Effect(
    kind: TransitionType,
    duration: real,
    easing: Easing,
    direction: Option<Direction>,
    intensity: Option<real>)

  /** An opaque image reference (a URL or an object URL). */
  type ImageRef = string

  /** The half-open time span test every locator uses: start <= t < end. */
  predicate InSpan(startTime: real, endTime: real, t: real)
  {
    startTime <= t < endTime
  }

  /** One timeline clip: an image shown over [startTime, endTime) with an effect. */
  datatype Clip = Clip(image: ImageRef, startTime: real, endTime: real, effect: Effect)
  {
    predicate Covers(t: real)
    {
      InSpan(startTime, endTime, t)
    }
  }

  const DefaultIntensity: real := 5.0

  /** `effect.intensity || 5`: an absent or zero intensity is read as 5; any
      other value, negative ones included, is used as it is. */
  function EffectiveIntensity(e: Effect): (k: real)
    ensures k != 0.0
    ensures e.intensity.Some? && e.intensity.value != 0.0 ==> k == e.intensity.value
    ensures e.intensity.None? || e.intensity.value == 0.0 ==> k == DefaultIntensity
  {
    match e.intensity
    case Some(v) => if v == 0.0 then DefaultIntensity else v
    case None => DefaultIntensity
  }

  /** `direction || 'right'`: a missing direction is read as right. */
  function SlideDirection(e: Effect): (d: Direction)
    ensures e.direction.Some? ==> d == e.direction.value
    ensures e.direction.None? ==> d == Right
  {
    e.direction.GetOr(Right)
  }
}
